=== FILE: README.md ===
# Market-trades dashboard: the selection layer, in Dafny

The dashboard reads pickled dictionaries of precomputed statistics tables
(price change, volume, holiday and special-period effects) and FRED economic
series, and shows them as charts and styled tables. Almost all of its code is
pandas, hvplot and Streamlit calls. This project models the decisions those
calls depend on and proves properties of them:

- which dictionary entry a view reads: the bare family name for `max_yr`,
  otherwise `family + "_" + range` (`StatsKeys`, with the inverse `ParseKey`);
- which rows feed the charts: the per-period filters of `plot_price_diff`,
  `plot_price_diff_holiday_period`, `plot_price_diff_tww_period` and
  `plot_price_diff_special_period` (`TickerPlot`), over tables that are a column
  order plus a sequence of rows, each row a `map<string, Cell>` (`Tables`);
- which rows the styled table shows and how it is displayed
  (`display_styled_table`, `formatting_dataframe`: column reorder, number
  formats, highlights; `Styling`);
- the projection `read_pickle` applies to the unpickled value and the
  ticker-name filter of `get_ticker_options` (`TickerPlot`);
- when the `combine_plots` wrapper of the economic view gives no chart, adds the
  recession shading or overlays a second series (`FredPlot`);
- the configured domains and the facts the code relies on (`Config`, `Domains`).

Charts are opaque terms (`Charts.Chart`): a bar, error bars, a horizontal line
or a series line records the table it draws, and `Overlay(a, b)` is the
HoloViews `a * b`. Exceptions that escape become `Wrappers.Error` values in a
`Result`. Exceptions the code catches are modelled as the code handles them:
`read_pickle` and the daily branch of `plot_price_diff` log the exception and
then return a variable that was never assigned. That return raises, so the
result is `Err(UnboundLocal)`, not a default. pandas semantics that matter for
selection are explicit: `df[col] == v` never matches a null and compares int
and float by value; `isin` also lets a null match a null in the list. When no
period is chosen, `period_spec` is `None` and is passed as `Null`; the `==`
filter then selects nothing.

The model follows the code as written. Only the first series of the economic
view is probed for missing data inside a `try` (`fred_plot.py` lines 95-102);
most other missing data is not recoverable:
- a missing dictionary key or filter column raises out of every ticker view;
- an unknown second FRED series raises out of `combine_plots`;
- an unreadable pickle ends in `UnboundLocalError`, not a "data unavailable"
  result.

Two quirks are kept as written:
- `formatting_dataframe` receives the dictionary family name.
  `first_trdr_dom_by_month` and `super_day_by_month` are not in its one-column
  set, which holds `first_trdr_dom` and `super_day`, so they move two columns.
- The ticker pattern needs two characters, so a one-letter directory name is
  never offered.

Inputs that come from I/O are parameters: the directory listing
(`Option<seq<string>>`, `None` when listing fails), the unpickled value
(`Option<PyVal>`, `None` when the file cannot be read), and the current month
and ISO week (`Styling.Today`).

## Model

| member | source | states |
|---|---|---|
| StatsKeys.ResolveKey | autovisualise_data/ticker_plot.py:248 | The key starts with the family name. It equals the bare name exactly for `max_yr`; for any other range it is the name, an underscore and the range. `ParseKey` inverts it (the next three rows). |
| StatsKeys.ParseResolve | autovisualise_data/ticker_plot.py:248 | For every configured year range and every family name that does not itself end in a range suffix, parsing the resolved key gives back the family and the range. |
| StatsKeys.ResolveParse | autovisualise_data/ticker_plot.py:289 | Every string is the resolution of its own parse, and the parsed range is one of the five configured ranges. |
| StatsKeys.ResolveKeyInjective | autovisualise_data/ticker_plot.py:289 | Two different (family, range) selections never resolve to the same dictionary key. |
| Tables.Where | autovisualise_data/ticker_plot.py:299 | A boolean-mask selection fails exactly when the column is absent. Otherwise it keeps the columns and exactly the selected rows, as a subsequence in source order and with their multiplicities. |
| Tables.WhereWellFormed | autovisualise_data/ticker_plot.py:299 | Selecting rows keeps a rectangular table rectangular. |
| Styling.MoveLastToFront | autovisualise_data/ticker_plot.py:155-158 | The reordered column list has the same length and the same columns as the input, including when there are fewer columns than are moved. |
| Styling.MoveIsRotation | autovisualise_data/ticker_plot.py:158 | The reorder is a right rotation: position i holds input position (i - m) mod n, where m = min(k, n) columns are moved. |
| Styling.MoveRoundTrip | autovisualise_data/ticker_plot.py:158 | Moving the first k columns back to the end restores the original column order. |
| Styling.IdentifyingColumnsFirst | autovisualise_data/ticker_plot.py:156-158 | The five one-column families put their last column first. Every other family puts its last two columns first. The rest keep their order. |
| Styling.FormattingDataframe | autovisualise_data/ticker_plot.py:152-189 | Formatting works on a copy: rows are unchanged, the columns are a permutation of the input's, and every cell of every row gets exactly the style the per-cell rules give it. |
| Styling.FormatRules | autovisualise_data/ticker_plot.py:161-171 | Exactly the eight `*_diff` columns get a 3-decimal percent format and exactly `up_prob`/`down_prob` a 2-decimal one; the two lists are disjoint. |
| Styling.ProbabilityHighlight | autovisualise_data/ticker_plot.py:174-175 | A probability cell is highlighted iff its value is at least 0.70; an `up_overall` cell iff it is positive. |
| Styling.NullsMarked | autovisualise_data/ticker_plot.py:173 | Null cells are marked and no value rule highlights them. |
| Styling.CurrentPeriodHighlight | autovisualise_data/ticker_plot.py:179-188 | For the four frequency families the period-column cell is highlighted iff it equals the current month or week. Other families never highlight their month or week column. The week column is used exactly for `weekly` and `daily_by_weekday`. |
| Styling.HighlightExamples | autovisualise_data/ticker_plot.py:175 | An `up_prob` of 0.75 is highlighted and one of 0.65 is not. |
| TickerPlot.GetTickerOptions | autovisualise_data/ticker_plot.py:62-68 | A failed listing gives []. Otherwise the result is a subsequence of the listing holding exactly the names with a non-'.' first character and an A-Z second character. |
| TickerPlot.TickerOptionsExcludeHidden | autovisualise_data/ticker_plot.py:64-65 | Every offered name has at least two characters and does not start with '.'. Each is offered as often as it is listed. |
| TickerPlot.Subscript | autovisualise_data/ticker_plot.py:122 | Python integer subscripting succeeds on a tuple or a string exactly when the index is in [-n, n), counting negative indices from the end. A tuple yields its element, a string the one-character string at that position. Every other value raises. |
| TickerPlot.ReadPickle | autovisualise_data/ticker_plot.py:118-131 | Any failure, including an unreadable file, ends in the unbound-variable error rather than a default value. |
| TickerPlot.ReadPickleDefault | autovisualise_data/ticker_plot.py:122 | Without an index the result is element [1] of the loaded tuple. A tuple with fewer than two elements gives the error. |
| TickerPlot.ReadPickleIndexed | autovisualise_data/ticker_plot.py:122 | With an index i, the read equals the indexless read of element [i], negative indices included. |
| TickerPlot.ReadPickleString | autovisualise_data/ticker_plot.py:122 | A loaded string of at least two characters reads as its second character. A shorter one gives the error. |
| TickerPlot.ReadPickleIndexOutOfRange | autovisualise_data/ticker_plot.py:122-131 | An index outside [-n, n) of the loaded tuple ends in the unbound-variable error, not a default. |
| TickerPlot.ReadPickleIndexedString | autovisualise_data/ticker_plot.py:122-131 | An indexed read of a loaded string always ends in the unbound-variable error, since a one-character string has no element [1]. |
| TickerPlot.ReadPickleNeedsTuple | autovisualise_data/ticker_plot.py:122-131 | A loaded value that is neither a tuple nor a string is never read successfully, with or without an index. |
| TickerPlot.DisplayStyledTable | autovisualise_data/ticker_plot.py:248-257 | A missing key fails with that key. Other families always succeed and format the whole resolved table. The four filtered families succeed iff the filter column is given and present and a value list is given. An absent or missing filter column fails with that column, and a missing list with the not-a-list error. On success they format exactly the selection of rows whose filter value is in the list, in source order. |
| TickerPlot.PlotPriceDiff | autovisualise_data/ticker_plot.py:289-337 | Succeeds iff the key exists and, for the daily families, the month or week column exists. A missing key fails with that key; a missing period column gives the unbound-variable error. The daily families return exactly the rows whose period equals the selection, in source order; others return the table unchanged. All three charts are the price panels of the returned table, so each draws that table and nothing else. |
| TickerPlot.DailyByTradingDayMonth | autovisualise_data/ticker_plot.py:295-299 | For `daily_by_trdr_day`, every returned row has the selected month and every source row with that month is returned. |
| TickerPlot.PlotPriceDiffHoliday | autovisualise_data/ticker_plot.py:471-493 | The view succeeds iff the key and the `holiday_category` column exist. A missing key fails with that key and a missing column with that column. It returns the whole table, while its charts are the price panels of exactly the selected holiday's rows. |
| TickerPlot.PlotPriceDiffTww | autovisualise_data/ticker_plot.py:523-564 | The view succeeds iff the key and the `tww_period` column exist, and it returns the whole table. A missing key fails with that key and a missing column with that column. The counts are a (before, after) pair drawn from the `key` and `key_week_aft` selections. The change and probability charts overlay exactly those two, and the probability chart carries the 0.7 and 0.3 reference lines. |
| TickerPlot.TwwTableIsBothWeeks | autovisualise_data/ticker_plot.py:524-527 | The week-before and week-after rows are disjoint. The table shown for the TWW view holds exactly the rows of both weeks, as a multiset. |
| TickerPlot.PlotPriceDiffSpecial | autovisualise_data/ticker_plot.py:595-637 | Succeeds iff the key exists and, for the two month-indexed periods, the `month` or `super_day_spec_month` column exists. A missing column propagates its error. Those two periods return exactly the rows whose column equals the period; others return the table unchanged. All charts are the price panels of the returned table. |
| TickerPlot.SpecialTableMatchesCharts | autovisualise_data/ticker_plot.py:600-603 | For the two month-indexed special periods and a chosen month, the table shown (via `isin`) and the charted table (via `==`) have the same rows in the same order. |
| TickerPlot.VolTables | autovisualise_data/ticker_plot.py:369-381 | The dictionary lookups of the volume view succeed iff `freq_avg_vol_col`, `freq_avg_vol_row` and `freq` exist and, for the daily families, the `freq` table has the month or week column. A missing volume table fails with the first missing key. After that, a daily family gives the unbound-variable error and any other family fails with the key `freq`. |
| Charts.PricePanels | autovisualise_data/ticker_plot.py:321-337 | Each of the three price charts draws only the given table: two layers for change with error bars, one for probability, one for counts. The probability chart carries the 0.7 and 0.3 reference lines, and the counts are a stacked up/down bar. |
| Charts.TwwPanels | autovisualise_data/ticker_plot.py:529-564 | The TWW change and probability charts overlay the week-before and week-after tables in that order. The probability chart carries the 0.7 and 0.3 reference lines. Each counts chart draws one week. |
| FredPlot.PlotEcoTrend | autovisualise_data/fred_plot.py:136-142 | The series line exists iff the name is in the data. It is that name's series, labelled with the name. |
| FredPlot.CombinePlots | autovisualise_data/fred_plot.py:94-116 | A missing or empty selection, or an unknown first name, gives no chart. When the first name is known, an unknown second name raises with that name, and otherwise there is a chart. Nothing else raises. Any chart is shaded iff recession shading is on, labels each line with its key, and plots exactly the first one or two names. |
| FredPlot.OnlyFirstTwoRead | autovisualise_data/fred_plot.py:107-114 | Names after the second never change the result. |
| FredPlot.OnlySelectedSeriesRead | autovisualise_data/fred_plot.py:97-108 | Two data sets that agree on the first two selected names give the same result. |
| FredPlot.CombineShapes | autovisualise_data/fred_plot.py:97-116 | With one known name the chart is its line, shaded on request. With two, that chart is overlaid with a line of the second series. |
| Config.YrRangeShape | config/config.py:11 | Five distinct year ranges, `max_yr` first and nowhere else. |
| Config.FreqListsShape | config/config.py:54-57 | Four frequency families and four period columns, each list without duplicates. |
| Config.TwwEntries | config/config.py:65-69 | Entries 5..8 of the special days are `tww_q1`..`tww_q4`. |
| Config.KeyListsDistinct | config/config.py:60-69 | The holiday keys and the special-day keys contain no duplicates. |
| Config.HolidayClassification | config/config.py:60-81 | The four holiday classification lists are subsets of the holiday keys and pairwise disjoint. |
| Config.FredGroupsHaveTwo | config/config.py:89-127 | Every FRED category has at least two series, and some category has no third. |
| Domains.DefaultRangeIsBareKey | config/config.py:11 | The default year range (index 0) resolves every family to its bare name. |
| Domains.FreqKeysUnsuffixed | config/config.py:54 | No frequency family name ends in a year-range suffix. |
| Domains.FreqKeysNameTwentyTables | autovisualise_data/ticker_plot.py:289 | The 4 frequency families and 5 year ranges resolve to 20 pairwise-distinct keys. |
| Domains.TwwWeekAfterNames | config/config.py:65-69 | Special-day entry 9+i is entry 5+i plus the `_week_aft` suffix that the TWW split selects on. |

## Left out

- Chart rendering: every hvplot, HoloViews, Bokeh and Streamlit call is an opaque `Chart` term. Width, tools, y-limits, legends, `shared_axes` and `opts(legend_position=...)` are not recorded. Building a chart never fails in the model, even when pandas would raise because a plotted column is missing.
- File-system access, `os.chdir`, environment variables, pickle decoding and `st.cache` memoisation: the listing and the unpickled value are parameters. The FRED `read_pickle` is pure I/O and is not modelled.
- `plot_vol_avg`: only its dictionary lookups are modelled (`VolTables`). Its float means, its multi-index `mean(level=1)` and the row filters feeding those means are not.
- TickerPlot.VolTables: for the daily families, an averaging step inside the `try` can still fail after the lookups succeed (a missing `trdr_day` or `weekday` index column, say). That failure also ends in the unbound-variable error, but the model reports success. For the other families, the family table at line 435 is read only for its key, not its columns.
- Percent string rendering, `hide_index` and the `bar` gradients of `formatting_dataframe`: only the column-to-format mapping is modelled.
- `datetime.today()` and `isocalendar()`: the current month and week are parameters.
- `styling_dataframe`: deprecated in its own documentation, and it depends on regex look-ahead semantics.
- Styler evaluation is lazy in pandas, so a styled column that is absent, or a non-numeric value compared with 0.70, raises only when the table is rendered. The model gives such cells no highlight instead.
- Cells are null, integer, real or string. Booleans, timestamps and NaN-versus-None distinctions are not represented.
- Floating point: a Python or pandas float is an exact Dafny `real`. The 0.70 threshold is 7/10, not the nearest double. Mixed int/float `==` compares exact values, not the int64-to-float64 cast. Infinities are not represented.
- `FRED_DATA_GROUPING` is an insertion-ordered dict in the source, and its key order is the order of the category picker. The model's `map` keeps the categories and their series but not that order.
- `read_pickle` takes `get_idx` as an optional integer. Python's `isinstance(True, int)` quirk for boolean indices is not represented.
- The unused `show_weekly` parameter of `plot_price_diff_tww_period` and the logging calls.
- run_streamlit.py: widget wiring, slider bounds and the per-tab pickle indices. config/config_dashboard.py, config/config_naming.py and config/config_logger.py hold styling objects, unused names and logging setup.

=== FILE: charts.dfy ===
/** Charts as opaque terms. The dashboard hands HoloViews objects to a
    renderer; the model keeps only what each object was built from, so that
    "which rows feed which chart" can be stated. `Overlay(a, b)` is the
    HoloViews `a * b`. */
module Charts {
  import opened Tables

  /** An x-axis window for the economic charts, kept opaque. */
  datatype DateRange = DateRange(start: int, end: int)

  datatype Chart =
    /** `data.hvplot(kind='bar', y=ys, stacked=stacked)` */
    | Bar(data: Table, ys: seq<string>, stacked: bool)
    /** `data.hvplot.errorbars(y=y, yerr1=yerr)` */
    | ErrorBars(data: Table, y: string, yerr: string)
    /** `hv.HLine(level)` */
    | HLine(level: real)
    /** `data.hvplot(kind='line', y='value', label=caption, xlim=window)` */
    | Line(data: Table, caption: string, window: DateRange)
    /** The fixed set of shaded recession periods. */
    | RecessionSpan
    | Overlay(left: Chart, right: Chart)

  /** The tables a chart draws, left to right. */
  function Sources(c: Chart): seq<Table> {
    match c
    case Bar(t, _, _) => [t]
    case ErrorBars(t, _, _) => [t]
    case Line(t, _, _) => [t]
    case HLine(_) => []
    case RecessionSpan => []
    case Overlay(a, b) => Sources(a) + Sources(b)
  }

  /** The chart draws at least one table, and every table it draws is
      exactly `t`. */
  predicate DrawnFrom(c: Chart, t: Table) {
    |Sources(c)| > 0 && forall i :: 0 <= i < |Sources(c)| ==> Sources(c)[i] == t
  }

  /** The `Line` layers of a chart, left to right. */
  function Lines(c: Chart): (r: seq<Chart>)
    ensures forall i :: 0 <= i < |r| ==> r[i].Line?
    ensures |r| <= |Sources(c)|
  {
    match c
    case Line(_, _, _) => [c]
    case Overlay(a, b) => Lines(a) + Lines(b)
    case _ => []
  }

  /** The levels of the horizontal reference lines of a chart, left to right. */
  function Levels(c: Chart): seq<real> {
    match c
    case HLine(y) => [y]
    case Overlay(a, b) => Levels(a) + Levels(b)
    case _ => []
  }

  predicate HasRecessionSpan(c: Chart) {
    match c
    case RecessionSpan => true
    case Overlay(a, b) => HasRecessionSpan(a) || HasRecessionSpan(b)
    case _ => false
  }

  /** The three charts every price-change view shows. */
  datatype PricePlots = PricePlots(avgDiff: Chart, upProb: Chart, counts: Chart)

  /** The TWW view: the week-before and week-after series are overlaid in the
      first two charts; the counts are a pair of separate charts. */
  datatype TwwPlots = TwwPlots(avgDiff: Chart, upProb: Chart, countsBefore: Chart, countsAfter: Chart)

  /** The reference levels drawn over every up-probability chart. */
  const UPPER_PROB: real := 0.7
  const LOWER_PROB: real := 0.3

  /** The three charts drawn from one table: average change with its
      standard-deviation error bars, up-probability with the two reference
      lines, and stacked up/down counts. */
  function PricePanels(t: Table): (p: PricePlots)
    ensures DrawnFrom(p.avgDiff, t) && DrawnFrom(p.upProb, t) && DrawnFrom(p.counts, t)
    ensures |Sources(p.avgDiff)| == 2 && |Sources(p.upProb)| == 1 && |Sources(p.counts)| == 1
    ensures Levels(p.upProb) == [UPPER_PROB, LOWER_PROB] && Levels(p.avgDiff) == []
    ensures p.counts.Bar? && p.counts.stacked && p.counts.ys == ["up_counts", "down_counts"]
  {
    var upBar := Overlay(Bar(t, ["up_prob"], false), HLine(UPPER_PROB));
    assert Sources(upBar) == [t];
    assert Levels(upBar) == [UPPER_PROB];
    PricePlots(
      Overlay(Bar(t, ["avg_diff"], false), ErrorBars(t, "avg_diff", "std_diff")),
      Overlay(upBar, HLine(LOWER_PROB)),
      Bar(t, ["up_counts", "down_counts"], true))
  }

  /** The TWW charts of a week-before and a week-after table: both weeks
      overlaid in the change and probability charts, the latter with the two
      reference lines, and a separate counts chart per week. */
  function TwwPanels(before: Table, after: Table): (p: TwwPlots)
    ensures Sources(p.countsBefore) == [before] && Sources(p.countsAfter) == [after]
    ensures Sources(p.avgDiff) == [before, after] && Sources(p.upProb) == [before, after]
    ensures Levels(p.upProb) == [UPPER_PROB, LOWER_PROB]
  {
    var upBoth := Overlay(Bar(before, ["up_prob"], false), Bar(after, ["up_prob"], false));
    var upWithLow := Overlay(upBoth, HLine(UPPER_PROB));
    assert Sources(upBoth) == [before] + [after];
    assert Sources(upWithLow) == [before, after];
    assert Levels(upBoth) == [];
    assert Levels(upWithLow) == [UPPER_PROB];
    TwwPlots(
      Overlay(Bar(before, ["avg_diff"], false), Bar(after, ["avg_diff"], false)),
      Overlay(upWithLow, HLine(LOWER_PROB)),
      Bar(before, ["up_counts", "down_counts"], false),
      Bar(after, ["up_counts", "down_counts"], false))
  }
}

=== FILE: config.dfy ===
/** The finite domains the dashboard builds its dictionary keys from, and the
    structural facts the rest of the code relies on (config/config.py). */
module Config {

  /** No name occurs twice. */
  predicate Distinct(s: seq<string>) {
    forall i, j :: 0 <= i < j < |s| ==> s[i] != s[j]
  }

  /** Year-range selector values; `max_yr` means "all years". */
  const YR_RANGE: seq<string> := ["max_yr", "range_20_yr", "range_15_yr", "range_10_yr", "range_5_yr"]

  /** The value meaning "no year-range suffix". */
  const MAX_YR: string := "max_yr"

  /** Frequency families, paired by position with their period columns. */
  const FREQ_KEYS: seq<string> := ["monthly", "weekly", "daily_by_trdr_day", "daily_by_weekday"]
  const FREQ_COLS: seq<string> := ["month", "week", "trdr_day", "weekday"]

  const HOLIDAYS_KEYS: seq<string> := [
    "new_year", "mar_lut_king_jr", "valentine", "president",
    "good_friday", "memorial", "independence", "labour",
    "event_911", "columbus", "veteran", "thanksgiving", "christmas"
  ]

  const SPECIAL_DAYS_KEYS: seq<string> := [
    "first_trdr_dom", "first_trdr_dom_by_month", "super_day", "super_day_by_month",
    "santa_rally", "tww_q1", "tww_q2", "tww_q3", "tww_q4",
    "tww_q1_week_aft", "tww_q2_week_aft", "tww_q3_week_aft", "tww_q4_week_aft"
  ]

  /** Holiday classification lists. */
  const SPEC_WEEKDAY_HOLIDAYS: seq<string> := ["mar_lut_king_jr", "president", "memorial", "labour", "columbus", "thanksgiving"]
  const SPEC_WEEKDAY_HOLIDAYS_BACKWARD: seq<string> := ["good_friday"]
  const NON_SPEC_HOLIDAYS: seq<string> := ["independence", "christmas"]
  const NON_SPEC_OBSERVANCES: seq<string> := ["valentine", "event_911", "veteran"]

  /** FRED series names by economic category. */
  const FRED_DATA_GROUPING: map<string, seq<string>> := map[
    "employment" := ["unemploy", "unemployNat", "participation", "popGrowth_YoY"],
    "household" := ["pDispIncome_YoY", "pConsumeExp_YoY", "pConsumeExpReal_YoY", "pSaveRatio",
                    "mortgageDebt", "consumeDebt"],
    "manufacture_and_business" := ["indusProduce", "capacUtilise", "manufactProduce", "manufactNewOrderExDef",
                    "manufactNewOrderExTrans", "onlineSales_YoY", "onlineSalesRatio", "retailSales_YoY",
                    "retailSalesAdv_YoY", "vehicleSales_YoY", "businessInventory_YoY",
                    "businessInventorySalesRatio", "manufactInventorySalesRatio", "retailInventorySalesRatio"],
    "housing" := ["houseStarts", "houseStarts_YoY", "newHomeSales", "newHomeSales_YoY", "existHomeSales",
                  "houseInventoryEst"],
    "gov_fiscal" := ["govFiscalBudget", "usGDP_YoY", "usGDPReal_YoY", "govBudgetGDP"],
    "fed_monetary" := ["fedFFR", "mortgageRate30Yr", "mortgageRate15Yr", "primeLoanRate", "libor3mth",
                       "excessReserveDepo", "liqM1_YoY", "veloM1", "liqM2_YoY", "veloM2"],
    "forex_trade" := ["tradeBalance", "tradeIndexUSD", "forexUS_CHINA"],
    "price" := ["usGDP_deflator_YoY", "pConsume_deflator_YoY", "producerPPI", "producerPPI_YoY",
                "caseShillerHPI", "caseShillerHPI_YoY", "nonFarm_unitLabour", "nonFarm_unitLabour_YoY"],
    "debt" := ["houseDebt", "govDebt_GDP_ratio", "houseDebt_GDP_ratio"],
    "bond_yield" := ["yield10Yr_minusFFR", "yield10Yr_minus2Yr"]
  ]

  /** Five distinct year ranges, `max_yr` first: the selector's default
      (index 0) is the unsuffixed range. */
  lemma YrRangeShape()
    ensures |YR_RANGE| == 5 && Distinct(YR_RANGE)
    ensures YR_RANGE[0] == MAX_YR
    ensures forall i :: 1 <= i < |YR_RANGE| ==> YR_RANGE[i] != MAX_YR
  {
  }

  /** Four frequency families and four period columns, each listed once.
      The lists are not paired by position: the daily view narrows
      `daily_by_trdr_day` on `month`, not on `FREQ_COLS[2]`. */
  lemma FreqListsShape()
    ensures |FREQ_KEYS| == |FREQ_COLS| == 4
    ensures Distinct(FREQ_KEYS) && Distinct(FREQ_COLS)
  {
  }

  /** Entries 5..8 of the special days are the four TWW quarters the TWW
      picker offers. */
  lemma TwwEntries()
    ensures |SPECIAL_DAYS_KEYS| == 13
    ensures SPECIAL_DAYS_KEYS[5..9] == ["tww_q1", "tww_q2", "tww_q3", "tww_q4"]
  {
  }

  lemma KeyListsDistinct()
    ensures Distinct(HOLIDAYS_KEYS) && Distinct(SPECIAL_DAYS_KEYS)
  {
  }

  /** The four holiday classification lists are drawn from the holiday keys
      and no holiday is classified twice. */
  lemma HolidayClassification()
    ensures forall h :: h in SPEC_WEEKDAY_HOLIDAYS ==> h in HOLIDAYS_KEYS
    ensures forall h :: h in SPEC_WEEKDAY_HOLIDAYS_BACKWARD ==> h in HOLIDAYS_KEYS
    ensures forall h :: h in NON_SPEC_HOLIDAYS ==> h in HOLIDAYS_KEYS
    ensures forall h :: h in NON_SPEC_OBSERVANCES ==> h in HOLIDAYS_KEYS
    ensures forall h :: h in SPEC_WEEKDAY_HOLIDAYS ==> h !in SPEC_WEEKDAY_HOLIDAYS_BACKWARD && h !in NON_SPEC_HOLIDAYS && h !in NON_SPEC_OBSERVANCES
    ensures forall h :: h in SPEC_WEEKDAY_HOLIDAYS_BACKWARD ==> h !in NON_SPEC_HOLIDAYS && h !in NON_SPEC_OBSERVANCES
    ensures forall h :: h in NON_SPEC_HOLIDAYS ==> h !in NON_SPEC_OBSERVANCES
  {
  }

  /** Every category offers a first and a second series (the defaults of the
      first two pickers), but not every category has a third. */
  lemma FredGroupsHaveTwo()
    ensures forall g :: g in FRED_DATA_GROUPING ==> |FRED_DATA_GROUPING[g]| >= 2
    ensures exists g :: g in FRED_DATA_GROUPING && |FRED_DATA_GROUPING[g]| < 3
  {
    assert |FRED_DATA_GROUPING["bond_yield"]| == 2;
  }
}

=== FILE: domains.dfy ===
/** Facts that tie the configured domains to the code that builds keys and
    selects rows from them. */
module Domains {
  import opened Config
  import opened StatsKeys
  import opened Tables
  import TickerPlot

  /** The default year range (index 0 of the picker) reads the bare family. */
  lemma DefaultRangeIsBareKey(family: string)
    ensures ResolveKey(family, YR_RANGE[0]) == family
  {
  }

  /** No frequency family name ends in a year-range suffix. */
  lemma FreqKeysUnsuffixed()
    ensures forall i :: 0 <= i < |FREQ_KEYS| ==> !HasRangeSuffix(FREQ_KEYS[i])
  {
    assert SUFFIXED_RANGES == ["range_20_yr", "range_15_yr", "range_10_yr", "range_5_yr"];
    forall i | 0 <= i < |FREQ_KEYS|
      ensures !HasRangeSuffix(FREQ_KEYS[i])
    {
      var k := FREQ_KEYS[i];
      if |k| >= 11 {
        assert k[|k| - 2] == 'a';
      }
    }
  }

  /** The 4 frequency families and 5 year ranges name 20 distinct tables. */
  lemma {:induction false} FreqKeysNameTwentyTables()
    ensures forall i1, j1, i2, j2 ::
      0 <= i1 < |FREQ_KEYS| && 0 <= j1 < |YR_RANGE| && 0 <= i2 < |FREQ_KEYS| && 0 <= j2 < |YR_RANGE|
      && ResolveKey(FREQ_KEYS[i1], YR_RANGE[j1]) == ResolveKey(FREQ_KEYS[i2], YR_RANGE[j2])
      ==> i1 == i2 && j1 == j2
    ensures |FREQ_KEYS| * |YR_RANGE| == 20
  {
    FreqKeysUnsuffixed();
    YrRangeShape();
    FreqListsShape();
    forall i1, j1, i2, j2 |
      0 <= i1 < |FREQ_KEYS| && 0 <= j1 < |YR_RANGE| && 0 <= i2 < |FREQ_KEYS| && 0 <= j2 < |YR_RANGE|
      && ResolveKey(FREQ_KEYS[i1], YR_RANGE[j1]) == ResolveKey(FREQ_KEYS[i2], YR_RANGE[j2])
      ensures i1 == i2 && j1 == j2
    {
      ResolveKeyInjective(FREQ_KEYS[i1], YR_RANGE[j1], FREQ_KEYS[i2], YR_RANGE[j2]);
    }
  }

  /** Each week-after entry of the special days is its quarter's name with
      the suffix the TWW split selects on, so the split's "after" rows are
      those labelled with the configured week-after name. */
  lemma TwwWeekAfterNames()
    ensures forall i :: 5 <= i < 9 ==>
      SPECIAL_DAYS_KEYS[i + 4] == SPECIAL_DAYS_KEYS[i] + TickerPlot.WEEK_AFTER_SUFFIX
    ensures forall i :: 5 <= i < 9 ==>
      TickerPlot.TwwWeek(SPECIAL_DAYS_KEYS[i], true) == ColEq("tww_period", StrVal(SPECIAL_DAYS_KEYS[i + 4]))
  {
  }
}

=== FILE: fred_plot.dfy ===
/** The economic-data view: `plot_eco_trend` draws one FRED series, and the
    `combine_plots` wrapper decides when nothing is drawn, when the
    recession periods are shaded, and when a second series is overlaid. */
module FredPlot {
  import opened Wrappers
  import opened Tables
  import opened Charts

  /** The FRED series, by name. */
  type EcoData = map<string, Table>

  /** `plot_eco_trend`: the line of one series, labelled with its name. */
  function PlotEcoTrend(ecoData: EcoData, name: string, window: DateRange): (r: Result<Chart>)
    ensures r.Ok? <==> name in ecoData
    ensures r.Err? ==> r.error == KeyNotFound(name)
    ensures r.Ok? ==> Lines(r.value) == [r.value] && LabelledByKey(r.value, ecoData)
    ensures r.Ok? ==> Captions(r.value) == [name]
  {
    if name in ecoData then Ok(Line(ecoData[name], name, window)) else Err(KeyNotFound(name))
  }

  /** Every line of `c` plots the series its label names. */
  predicate LabelledByKey(c: Chart, ecoData: EcoData) {
    forall i :: 0 <= i < |Lines(c)| ==>
      Lines(c)[i].caption in ecoData && ecoData[Lines(c)[i].caption] == Lines(c)[i].data
  }

  /** The series names a chart plots, in layer order. */
  function Captions(c: Chart): seq<string> {
    seq(|Lines(c)|, i requires 0 <= i < |Lines(c)| => Lines(c)[i].caption)
  }

  /** `plot_eco_trend` as wrapped by `combine_plots`. The selection `ecoCat`
      is `None` when the picker has no default. Everything up to the
      recession overlay runs inside a `try`, so a missing selection, an empty
      one or an unknown first name gives no chart (`Ok(None)`); the second
      name is looked up outside it, so an unknown second name raises. */
  function CombinePlots(ecoData: EcoData, ecoCat: Option<seq<string>>, window: DateRange,
                        showRecession: bool): (r: Result<Option<Chart>>)
    ensures ecoCat.None? || |ecoCat.value| == 0 ==> r == Ok(None)
    ensures ecoCat.Some? && |ecoCat.value| > 0 && ecoCat.value[0] !in ecoData ==> r == Ok(None)
    ensures r.Err? ==> ecoCat.Some? && |ecoCat.value| >= 2 && r.error == KeyNotFound(ecoCat.value[1])
    ensures ecoCat.Some? && |ecoCat.value| >= 2 && ecoCat.value[0] in ecoData && ecoCat.value[1] !in ecoData ==>
      r == Err(KeyNotFound(ecoCat.value[1]))
    ensures ecoCat.Some? && |ecoCat.value| > 0 && ecoCat.value[0] in ecoData ==>
      (|ecoCat.value| >= 2 ==> ecoCat.value[1] in ecoData) ==> r.Ok? && r.value.Some?
    ensures r.Ok? && r.value.Some? ==> var c := r.value.value;
      && ecoCat.Some?
      && HasRecessionSpan(c) == showRecession
      && LabelledByKey(c, ecoData)
      && Captions(c) == ecoCat.value[..if |ecoCat.value| >= 2 then 2 else 1]
  {
    if ecoCat.None? || |ecoCat.value| == 0 || ecoCat.value[0] !in ecoData then Ok(None)
    else
      var line := PlotEcoTrend(ecoData, ecoCat.value[0], window).value;
      var main := if showRecession then Overlay(line, RecessionSpan) else line;
      assert Lines(main) == [line];
      assert HasRecessionSpan(main) == showRecession;
      if |ecoCat.value| >= 2 then
        var second :- PlotEcoTrend(ecoData, ecoCat.value[1], window);
        assert !HasRecessionSpan(second);
        var both := Overlay(main, second);
        assert Lines(both) == [line, second];
        Ok(Some(both))
      else Ok(Some(main))
  }

  /** Names after the second are never read: only the first two matter. */
  lemma OnlyFirstTwoRead(ecoData: EcoData, names: seq<string>, window: DateRange, showRecession: bool)
    requires |names| >= 2
    ensures CombinePlots(ecoData, Some(names), window, showRecession)
         == CombinePlots(ecoData, Some(names[..2]), window, showRecession)
  {
  }

  /** Series other than the selected ones do not affect the chart. */
  lemma OnlySelectedSeriesRead(d1: EcoData, d2: EcoData, names: seq<string>, window: DateRange, showRecession: bool)
    requires forall i :: 0 <= i < |names| && i < 2 ==>
      (names[i] in d1 <==> names[i] in d2) && (names[i] in d1 ==> d1[names[i]] == d2[names[i]])
    ensures CombinePlots(d1, Some(names), window, showRecession) == CombinePlots(d2, Some(names), window, showRecession)
  {
  }

  /** With exactly one name the chart is that series, shaded on request, and
      with two it is that chart overlaid with a line of the second series. */
  lemma CombineShapes(ecoData: EcoData, names: seq<string>, window: DateRange, showRecession: bool)
    requires |names| >= 1 && names[0] in ecoData
    requires |names| >= 2 ==> names[1] in ecoData
    ensures var main := if showRecession then Overlay(Line(ecoData[names[0]], names[0], window), RecessionSpan)
                        else Line(ecoData[names[0]], names[0], window);
      CombinePlots(ecoData, Some(names), window, showRecession)
        == Ok(Some(if |names| == 1 then main else Overlay(main, Line(ecoData[names[1]], names[1], window))))
  {
  }
}

=== FILE: seqs.dfy ===
/** Order-preserving selection over sequences: the shape of every pandas
    boolean-mask selection (`df.loc[mask, :]`) and of Python's `filter`. */
module Seqs {

  /** `a` can be obtained from `b` by deleting elements, keeping order. */
  ghost predicate Subsequence<T>(a: seq<T>, b: seq<T>)
    decreases |b|
  {
    || |a| == 0
    || (|b| > 0 && ((a[0] == b[0] && Subsequence(a[1..], b[1..])) || Subsequence(a, b[1..])))
  }

  /** The elements of `xs` that satisfy `p`, in their original order and with
      their original multiplicities. */
  function Filter<T(!new)>(xs: seq<T>, p: T -> bool): (r: seq<T>)
    ensures |r| <= |xs|
    ensures Subsequence(r, xs)
    ensures forall x :: x in r <==> x in xs && p(x)
    ensures forall x :: multiset(r)[x] == if p(x) then multiset(xs)[x] else 0
  {
    if |xs| == 0 then []
    else
      var rest := Filter(xs[1..], p);
      assert xs == [xs[0]] + xs[1..];
      if p(xs[0]) then
        assert ([xs[0]] + rest)[1..] == rest;
        [xs[0]] + rest
      else rest
  }

  /** Selecting with a predicate that is the disjoint union of two others
      yields, as a multiset, the union of the two separate selections. */
  lemma {:induction false} FilterDisjointUnion<T(!new)>(xs: seq<T>, p: T -> bool, q: T -> bool, pq: T -> bool)
    requires forall x :: pq(x) == (p(x) || q(x))
    requires forall x :: !(p(x) && q(x))
    ensures multiset(Filter(xs, pq)) == multiset(Filter(xs, p)) + multiset(Filter(xs, q))
    ensures multiset(Filter(xs, p)) !! multiset(Filter(xs, q))
  {
    var a, b, c := multiset(Filter(xs, p)), multiset(Filter(xs, q)), multiset(Filter(xs, pq));
    forall x
      ensures c[x] == (a + b)[x]
    {
    }
    forall x | x in a
      ensures x !in b
    {
    }
  }

  /** Two predicates that agree on every element select the same result. */
  lemma {:induction false} FilterExtensional<T(!new)>(xs: seq<T>, p: T -> bool, q: T -> bool)
    requires forall i :: 0 <= i < |xs| ==> p(xs[i]) == q(xs[i])
    ensures Filter(xs, p) == Filter(xs, q)
  {
    if |xs| > 0 {
      FilterExtensional(xs[1..], p, q);
    }
  }
}

=== FILE: stats_keys.dfy ===
/** How a table family and a year range name an entry of the pickled
    dictionary of statistics tables: the bare family name for `max_yr`,
    otherwise the family name, an underscore and the range. */
module StatsKeys {
  import opened Wrappers
  import opened Config

  function ResolveKey(base: string, yrRange: string): (key: string)
    ensures |base| <= |key| && key[..|base|] == base
    ensures key == base <==> yrRange == MAX_YR
    ensures yrRange != MAX_YR ==> EndsWith(key, "_" + yrRange) && |key| == |base| + 1 + |yrRange|
  {
    if yrRange == MAX_YR then base else base + "_" + yrRange
  }

  /** The ranges that add a suffix to the family name. */
  const SUFFIXED_RANGES: seq<string> := YR_RANGE[1..]

  predicate EndsWith(s: string, suffix: string) {
    |suffix| <= |s| && s[|s| - |suffix|..] == suffix
  }

  /** The first range in `ranges` whose underscored form ends `key`. */
  function MatchSuffix(key: string, ranges: seq<string>): (m: Option<string>)
    ensures m.Some? ==> m.value in ranges && EndsWith(key, "_" + m.value)
    ensures m.None? ==> forall r :: r in ranges ==> !EndsWith(key, "_" + r)
  {
    if |ranges| == 0 then None
    else if EndsWith(key, "_" + ranges[0]) then Some(ranges[0])
    else MatchSuffix(key, ranges[1..])
  }

  /** `key` ends with an underscore followed by a range other than `max_yr`. */
  predicate HasRangeSuffix(key: string) {
    MatchSuffix(key, SUFFIXED_RANGES).Some?
  }

  /** Splits a dictionary key back into its family and year range. */
  function ParseKey(key: string): (string, string) {
    match MatchSuffix(key, SUFFIXED_RANGES)
    case Some(r) => (key[..|key| - |r| - 1], r)
    case None => (key, MAX_YR)
  }

  /** A suffix of `b + s` no longer than `s` is a suffix of `s`; a longer one
      has `s` as its own suffix. */
  lemma EndsWithConcat(b: string, s: string, t: string)
    requires EndsWith(b + s, t)
    ensures |t| <= |s| ==> EndsWith(s, t)
    ensures |t| > |s| ==> EndsWith(t, s)
  {
    var bs := b + s;
    if |t| <= |s| {
      assert bs[|bs| - |t|..] == s[|s| - |t|..];
    } else {
      assert t[|t| - |s|..] == bs[|bs| - |s|..] == s;
    }
  }

  /** No underscored suffixed range ends another one. */
  lemma SuffixesDoNotOverlap(r: string, q: string)
    requires r in SUFFIXED_RANGES && q in SUFFIXED_RANGES && r != q
    ensures !EndsWith("_" + r, "_" + q)
  {
    assert SUFFIXED_RANGES == ["range_20_yr", "range_15_yr", "range_10_yr", "range_5_yr"];
    var ur, uq := "_" + r, "_" + q;
    if |uq| == |ur| {
      assert ur[|ur| - |uq|..] == ur;
      assert ur[1..] == r && uq[1..] == q;
    } else if |uq| < |ur| {
      assert |ur| - |uq| == 1;
      assert ur[|ur| - |uq|..][0] == ur[1] == 'r' != uq[0];
    }
  }

  /** Parsing undoes resolution, for every range and every family name that
      does not itself end in a range suffix. */
  lemma {:induction false} ParseResolve(base: string, yrRange: string)
    requires yrRange in YR_RANGE
    requires !HasRangeSuffix(base)
    ensures ParseKey(ResolveKey(base, yrRange)) == (base, yrRange)
  {
    if yrRange != MAX_YR {
      assert yrRange in SUFFIXED_RANGES;
      var key := base + ("_" + yrRange);
      assert key == ResolveKey(base, yrRange);
      assert key[|key| - |"_" + yrRange|..] == "_" + yrRange;
      var m := MatchSuffix(key, SUFFIXED_RANGES);
      assert m.Some?;
      if m.value != yrRange {
        EndsWithConcat(base, "_" + yrRange, "_" + m.value);
        SuffixesDoNotOverlap(yrRange, m.value);
        SuffixesDoNotOverlap(m.value, yrRange);
        assert false;
      }
      assert key[..|key| - |yrRange| - 1] == base;
    }
  }

  /** Resolution undoes parsing: every key is the resolution of its parse. */
  lemma {:induction false} ResolveParse(key: string)
    ensures ParseKey(key).1 in YR_RANGE
    ensures ResolveKey(ParseKey(key).0, ParseKey(key).1) == key
  {
    var m := MatchSuffix(key, SUFFIXED_RANGES);
    if m.Some? {
      var r := m.value;
      assert r != MAX_YR && r in YR_RANGE;
      assert key == key[..|key| - |r| - 1] + key[|key| - |r| - 1..];
    }
  }

  /** Two different (family, range) selections never share a key. */
  lemma ResolveKeyInjective(b1: string, r1: string, b2: string, r2: string)
    requires r1 in YR_RANGE && r2 in YR_RANGE
    requires !HasRangeSuffix(b1) && !HasRangeSuffix(b2)
    requires ResolveKey(b1, r1) == ResolveKey(b2, r2)
    ensures b1 == b2 && r1 == r2
  {
    ParseResolve(b1, r1);
    ParseResolve(b2, r2);
  }
}

=== FILE: styling.dfy ===
/** Display rules for a statistics table (`formatting_dataframe`): the
    identifying columns move to the front, each column gets a number format,
    and some cells get a background. The input table is never changed; the
    result holds the reordered table and a style for every cell. */
module Styling {
  import opened Wrappers
  import opened Tables
  import Config

  // ---------------------------------------------------------------------
  // Column order
  // ---------------------------------------------------------------------

  /** Families whose identifying part is the single last column; every other
      family has two (for instance month and trading day). */
  const ONE_ID_COLUMN: set<string> := {"monthly", "weekly", "first_trdr_dom", "super_day", "santa_rally"}

  function IdColumnCount(freq: string): (k: nat)
    ensures k == 1 || k == 2
  {
    if freq in ONE_ID_COLUMN then 1 else 2
  }

  /** Python's `cols[-k:] + cols[:-k]`: the last `k` entries move to the
      front. Both slices clamp, so with at most `k` entries nothing moves. */
  function MoveLastToFront<T>(cols: seq<T>, k: nat): (r: seq<T>)
    ensures |r| == |cols|
    ensures multiset(r) == multiset(cols)
  {
    var split := |cols| - Moved(|cols|, k);
    var r := cols[split..] + cols[..split];
    assert cols == cols[..split] + cols[split..];
    r
  }

  /** How many entries `MoveLastToFront` moves. */
  function Moved(n: nat, k: nat): (m: nat)
    ensures m <= n
  {
    if k <= n then k else n
  }

  /** The inverse reordering: the first `k` entries move to the back. */
  function MoveFirstToBack<T>(cols: seq<T>, k: nat): seq<T> {
    var m := Moved(|cols|, k);
    cols[m..] + cols[..m]
  }

  /** `MoveLastToFront` is a right rotation by the number of moved entries:
      position `i` of the result holds position `i - m` of the input, counted
      modulo the length. */
  lemma MoveIsRotation<T>(cols: seq<T>, k: nat)
    ensures var r, n, m := MoveLastToFront(cols, k), |cols|, Moved(|cols|, k);
      forall i :: 0 <= i < n ==> r[i] == cols[(i + n - m) % n]
  {
    var r, n, m := MoveLastToFront(cols, k), |cols|, Moved(|cols|, k);
    forall i | 0 <= i < n
      ensures r[i] == cols[(i + n - m) % n]
    {
      if i < m {
        ModBelow(i + n - m, n);
      } else {
        ModAbove(i + n - m, n);
      }
    }
  }

  lemma ModBelow(x: int, n: int)
    requires 0 <= x < n
    ensures x % n == x
  {
  }

  lemma ModAbove(x: int, n: int)
    requires 0 < n <= x < 2 * n
    ensures x % n == x - n
  {
  }

  /** Moving the identifying columns back restores the original order. */
  lemma MoveRoundTrip<T>(cols: seq<T>, k: nat)
    ensures MoveFirstToBack(MoveLastToFront(cols, k), k) == cols
  {
    var m := Moved(|cols|, k);
    var split := |cols| - m;
    var r := MoveLastToFront(cols, k);
    assert r[..m] == cols[split..];
    assert r[m..] == cols[..split];
    assert cols == cols[..split] + cols[split..];
  }

  // ---------------------------------------------------------------------
  // Per-cell rules
  // ---------------------------------------------------------------------

  datatype Format = Percent3 | Percent2 | Plain

  const DIFF_COLUMNS: seq<string> := [
    "avg_diff", "med_diff", "tot_diff", "max_diff", "min_diff", "std_diff", "pos_avg_diff", "neg_avg_diff"
  ]
  const PROB_COLUMNS: seq<string> := ["up_prob", "down_prob"]

  /** Change columns show three decimals of a percent, probabilities two,
      everything else its raw value. */
  function FormatOf(col: string): Format {
    if col in DIFF_COLUMNS then Percent3
    else if col in PROB_COLUMNS then Percent2
    else Plain
  }

  /** A probability at or above this level is highlighted. */
  const HIGH_PROB: real := 0.7

  /** The numeric value of a cell, if it has one. */
  function AsReal(c: Cell): Option<real> {
    match c
    case IntVal(i) => Some(i as real)
    case RealVal(x) => Some(x)
    case _ => None
  }

  /** The current calendar month and ISO week, supplied by the caller. */
  datatype Today = Today(month: int, week: int)

  /** The column holding the current period: the week for weekly families,
      the month for all others. */
  function PeriodColumn(freq: string): string {
    if freq in {"weekly", "daily_by_weekday"} then "week" else "month"
  }

  function CurrentPeriod(freq: string, today: Today): int {
    if freq in {"weekly", "daily_by_weekday"} then today.week else today.month
  }

  /** Only the four frequency families mark the current period. */
  predicate MarksCurrentPeriod(freq: string) {
    freq in Config.FREQ_KEYS
  }

  datatype CellStyle = CellStyle(format: Format, nullMarked: bool, highlighted: bool)

  function StyleCell(freq: string, today: Today, col: string, c: Cell): CellStyle {
    var v := AsReal(c);
    var high :=
      || (col in PROB_COLUMNS && v.Some? && v.value >= HIGH_PROB)
      || (col == "up_overall" && v.Some? && v.value > 0.0)
      || (MarksCurrentPeriod(freq) && col == PeriodColumn(freq)
          && CellEq(c, IntVal(CurrentPeriod(freq, today))));
    CellStyle(FormatOf(col), c.Null?, high)
  }

  /** A table ready for display, with one style per cell of each row. */
  datatype Styled = Styled(table: Table, styles: seq<map<string, CellStyle>>)

  /** `formatting_dataframe(df, freq)` on a copy of `t`. */
  function FormattingDataframe(t: Table, freq: string, today: Today): (s: Styled)
    ensures s.table.rows == t.rows
    ensures |s.table.columns| == |t.columns| && multiset(s.table.columns) == multiset(t.columns)
    ensures |s.styles| == |t.rows|
    ensures forall i :: 0 <= i < |s.styles| ==> s.styles[i].Keys == t.rows[i].Keys
    ensures forall i, col :: 0 <= i < |s.styles| && col in s.styles[i] ==>
      s.styles[i][col] == StyleCell(freq, today, col, t.rows[i][col])
  {
    var cols := MoveLastToFront(t.columns, IdColumnCount(freq));
    var styles := seq(|t.rows|, i requires 0 <= i < |t.rows| =>
      map col | col in t.rows[i] :: StyleCell(freq, today, col, t.rows[i][col]));
    Styled(Table(cols, t.rows), styles)
  }

  // ---------------------------------------------------------------------
  // What the rules promise
  // ---------------------------------------------------------------------

  /** The identifying columns come first: the styled table's columns are the
      input's rotated right by one column for the five one-column families
      and by two for every other family. */
  lemma IdentifyingColumnsFirst(t: Table, freq: string, today: Today)
    requires |t.columns| >= 2
    ensures var cols := FormattingDataframe(t, freq, today).table.columns;
      var n := |t.columns|;
      if freq in ONE_ID_COLUMN then cols[0] == t.columns[n - 1] && cols[1..] == t.columns[..n - 1]
      else cols[..2] == t.columns[n - 2..] && cols[2..] == t.columns[..n - 2]
  {
  }

  /** Exactly the eight change columns get three decimals and the two
      probability columns get two. */
  lemma FormatRules(col: string)
    ensures FormatOf(col) == Percent3 <==> col in DIFF_COLUMNS
    ensures FormatOf(col) == Percent2 <==> col in PROB_COLUMNS
    ensures |DIFF_COLUMNS| == 8 && !(exists d :: d in DIFF_COLUMNS && d in PROB_COLUMNS)
  {
  }

  /** A probability cell is highlighted exactly when its value is at least
      0.70, and the overall-up cell exactly when it is positive. */
  lemma ProbabilityHighlight(freq: string, today: Today, col: string, x: real)
    requires col in PROB_COLUMNS
    ensures StyleCell(freq, today, col, RealVal(x)).highlighted <==> x >= 0.7
    ensures StyleCell(freq, today, "up_overall", RealVal(x)).highlighted <==> x > 0.0
  {
  }

  /** Nulls are marked and never highlighted by a value rule. */
  lemma NullsMarked(freq: string, today: Today, col: string)
    ensures StyleCell(freq, today, col, Null).nullMarked
    ensures !StyleCell(freq, today, col, Null).highlighted
  {
  }

  /** The current-period cell is highlighted for the four frequency families
      only; other families never highlight their month or week column. */
  lemma CurrentPeriodHighlight(freq: string, today: Today, c: Cell)
    ensures freq in Config.FREQ_KEYS ==>
      (StyleCell(freq, today, PeriodColumn(freq), c).highlighted <==> CellEq(c, IntVal(CurrentPeriod(freq, today))))
    ensures freq !in Config.FREQ_KEYS ==>
      !StyleCell(freq, today, "month", c).highlighted && !StyleCell(freq, today, "week", c).highlighted
    ensures PeriodColumn(freq) == "week" <==> freq == "weekly" || freq == "daily_by_weekday"
  {
  }

  /** A probability of 0.75 is highlighted and one of 0.65 is not. */
  lemma HighlightExamples(freq: string, today: Today)
    ensures StyleCell(freq, today, "up_prob", RealVal(0.75)).highlighted
    ensures !StyleCell(freq, today, "up_prob", RealVal(0.65)).highlighted
  {
  }
}

=== FILE: tables.dfy ===
/** Tables of precomputed statistics, as the dashboard receives them from
    its pickle files, and the two ways the dashboard selects rows from them:
    element-wise equality on a column (`df[col] == v`) and membership of a
    column's value in a list (`df[col].isin(vals)`). */
module Tables {
  import opened Wrappers
  import Seqs

  /** One cell of a pandas frame. `Null` stands for both `None` and NaN. */
  datatype Cell = Null | IntVal(i: int) | RealVal(x: real) | StrVal(s: string)

  /** A row maps column names to cells. */
  type Row = map<string, Cell>

  /** A frame: its column order and its rows in index order. */
  datatype Table = Table(columns: seq<string>, rows: seq<Row>)

  /** Every row carries exactly the table's columns, each named once. */
  ghost predicate WellFormed(t: Table) {
    && (forall i, j :: 0 <= i < j < |t.columns| ==> t.columns[i] != t.columns[j])
    && (forall k :: 0 <= k < |t.rows| ==> t.rows[k].Keys == set c | c in t.columns)
  }

  /** pandas element-wise `==`: numbers compare by value across int and
      float, strings by content, and a null is equal to nothing. */
  predicate CellEq(a: Cell, b: Cell) {
    match (a, b)
    case (IntVal(x), IntVal(y)) => x == y
    case (IntVal(x), RealVal(y)) => x as real == y
    case (RealVal(x), IntVal(y)) => x == y as real
    case (RealVal(x), RealVal(y)) => x == y
    case (StrVal(x), StrVal(y)) => x == y
    case _ => false
  }

  /** pandas `isin`: like `==`, except that a null in the list matches a
      null cell. */
  predicate IsIn(c: Cell, vals: seq<Cell>) {
    exists i :: 0 <= i < |vals| && (CellEq(c, vals[i]) || (c.Null? && vals[i].Null?))
  }

  /** A row selection on one column. */
  datatype Criterion =
    | ColEq(col: string, val: Cell)
    | ColIn(col: string, vals: seq<Cell>)
  {
    /** The column the selection reads. */
    function Column(): string {
      match this
      case ColEq(c, _) => c
      case ColIn(c, _) => c
    }
  }

  predicate Selects(c: Criterion, r: Row) {
    && c.Column() in r
    && match c
       case ColEq(col, v) => CellEq(r[col], v)
       case ColIn(col, vs) => IsIn(r[col], vs)
  }

  /** The criterion as a row predicate, defined once so that every
      selection on the same criterion uses the same function value. */
  function Sel(c: Criterion): Row -> bool {
    r => Selects(c, r)
  }

  /** `f` is the part of `t` that `c` selects: the same columns, and the
      selected rows of `t` in their original order, each as often as in `t`. */
  ghost predicate IsSelection(f: Table, t: Table, c: Criterion) {
    && f.columns == t.columns
    && Seqs.Subsequence(f.rows, t.rows)
    && (forall row :: row in f.rows <==> row in t.rows && Selects(c, row))
    && (forall row :: Selects(c, row) ==> multiset(f.rows)[row] == multiset(t.rows)[row])
  }

  /** `df.loc[df[col] <criterion>, :]`: the column must exist; the rows
      kept are those the criterion selects, in index order. */
  function Where(t: Table, c: Criterion): (r: Result<Table>)
    ensures r.Ok? <==> c.Column() in t.columns
    ensures r.Err? ==> r.error == ColumnMissing(Some(c.Column()))
    ensures r.Ok? ==> IsSelection(r.value, t, c)
  {
    if c.Column() in t.columns then Ok(Table(t.columns, Seqs.Filter(t.rows, Sel(c))))
    else Err(ColumnMissing(Some(c.Column())))
  }

  /** A selection keeps a well-formed table well-formed. */
  lemma WhereWellFormed(t: Table, c: Criterion)
    requires WellFormed(t)
    requires c.Column() in t.columns
    ensures WellFormed(Where(t, c).value)
  {
    var r := Where(t, c).value;
    forall k | 0 <= k < |r.rows|
      ensures r.rows[k].Keys == set c | c in t.columns
    {
      assert r.rows[k] in t.rows;
    }
  }
}

=== FILE: ticker_plot.dfy ===
/** The selection layer of the ticker views: which dictionary entry a view
    reads, which rows of it feed the charts, and which rows the table shows.
    Chart construction is abstracted to `Charts` terms. */
module TickerPlot {
  import opened Wrappers
  import opened Tables
  import opened Charts
  import opened StatsKeys
  import Seqs
  import Styling

  /** The statistics tables of one pickle, by key. */
  type Stats = map<string, Table>

  function Lookup(stats: Stats, key: string): (r: Result<Table>)
    ensures r.Ok? <==> key in stats
    ensures r.Ok? ==> r.value == stats[key]
    ensures r.Err? ==> r.error == KeyNotFound(key)
  {
    if key in stats then Ok(stats[key]) else Err(KeyNotFound(key))
  }

  // ---------------------------------------------------------------------
  // get_ticker_options
  // ---------------------------------------------------------------------

  /** The pattern `[^.][A-Z]` anchored at the start (`re.match`): a first
      character other than '.', then an ASCII capital letter. */
  predicate IsTickerName(name: string) {
    |name| >= 2 && name[0] != '.' && 'A' <= name[1] <= 'Z'
  }

  /** The ticker directory names of a listing, in listing order; a failed
      listing (`None`) gives the empty list. */
  function GetTickerOptions(listing: Option<seq<string>>): (r: seq<string>)
    ensures listing.None? ==> r == []
    ensures listing.Some? ==> Seqs.Subsequence(r, listing.value)
    ensures listing.Some? ==> forall n :: n in r <==> n in listing.value && IsTickerName(n)
  {
    match listing
    case None => []
    case Some(names) => Seqs.Filter(names, IsTickerName)
  }

  /** Hidden entries and names of fewer than two characters are never
      offered, whatever the listing holds. */
  lemma TickerOptionsExcludeHidden(listing: seq<string>, n: string)
    requires n in GetTickerOptions(Some(listing))
    ensures |n| >= 2 && n[0] != '.'
    ensures multiset(GetTickerOptions(Some(listing)))[n] == multiset(listing)[n]
  {
  }

  // ---------------------------------------------------------------------
  // read_pickle
  // ---------------------------------------------------------------------

  /** An unpickled value: a tuple (or list), a dictionary of tables, or
      anything else. */
  datatype PyVal = PTuple(items: seq<PyVal>) | PDict(tables: Stats) | PScalar(c: Cell)

  /** A Python string value, which integer subscripting also accepts. */
  predicate IsStr(v: PyVal) {
    v.PScalar? && v.c.StrVal?
  }

  /** The position Python's `xs[i]` reads in a sequence of length `n`:
      negative indices count from the end. */
  function Position(n: nat, i: int): (k: int)
    ensures -(n as int) <= i < n ==> 0 <= k < n && (k == i || k == n + i)
    ensures 0 <= i ==> k == i
  {
    if i < 0 then n + i else i
  }

  /** Python `v[i]` for an integer `i`; `None` when it raises (index out of
      range, an integer key missing from a dictionary of string keys, or an
      unsubscriptable value). A tuple yields its element and a string the
      one-character string at that position. */
  function Subscript(v: PyVal, i: int): (r: Option<PyVal>)
    ensures v.PTuple? ==> (r.Some? <==> -|v.items| <= i < |v.items|)
    ensures v.PTuple? && r.Some? ==> r.value == v.items[Position(|v.items|, i)]
    ensures IsStr(v) ==> (r.Some? <==> -|v.c.s| <= i < |v.c.s|)
    ensures IsStr(v) && r.Some? ==> r.value == PScalar(StrVal([v.c.s[Position(|v.c.s|, i)]]))
    ensures !v.PTuple? && !IsStr(v) ==> r.None?
  {
    match v
    case PTuple(xs) =>
      if 0 <= i < |xs| then Some(xs[i])
      else if -|xs| <= i < 0 then Some(xs[|xs| + i])
      else None
    case PScalar(StrVal(str)) =>
      if 0 <= i < |str| then Some(PScalar(StrVal([str[i]])))
      else if -|str| <= i < 0 then Some(PScalar(StrVal([str[|str| + i]])))
      else None
    case _ => None
  }

  /** The projection `read_pickle` applies to the unpickled value `loaded`
      (`None` when the file cannot be read): element [1] of element
      [getIdx] when an index is given, element [1] otherwise. Any failure is
      only logged, and the final `return` of the never-assigned result then
      raises. */
  function ReadPickle(loaded: Option<PyVal>, getIdx: Option<int>): (r: Result<PyVal>)
    ensures r.Err? ==> r.error == UnboundLocal
    ensures loaded.None? ==> r.Err?
  {
    if loaded.None? then Err(UnboundLocal)
    else
      var inner := if getIdx.Some? then Subscript(loaded.value, getIdx.value) else Some(loaded.value);
      if inner.None? then Err(UnboundLocal)
      else
        match Subscript(inner.value, 1)
        case Some(v) => Ok(v)
        case None => Err(UnboundLocal)
  }

  /** Without an index the result is the second element of the loaded tuple,
      and the read fails rather than yield a default when there is none. */
  lemma ReadPickleDefault(xs: seq<PyVal>)
    ensures |xs| >= 2 ==> ReadPickle(Some(PTuple(xs)), None) == Ok(xs[1])
    ensures |xs| < 2 ==> ReadPickle(Some(PTuple(xs)), None) == Err(UnboundLocal)
  {
  }

  /** With an index, the read is the indexless read of the selected element. */
  lemma ReadPickleIndexed(xs: seq<PyVal>, i: int)
    requires -|xs| <= i < |xs|
    ensures ReadPickle(Some(PTuple(xs)), Some(i)) == ReadPickle(Some(xs[Position(|xs|, i)]), None)
  {
  }

  /** A loaded string is subscripted like a tuple: the read is its second
      character, as a one-character string. */
  lemma ReadPickleString(str: string)
    ensures |str| >= 2 ==> ReadPickle(Some(PScalar(StrVal(str))), None) == Ok(PScalar(StrVal([str[1]])))
    ensures |str| < 2 ==> ReadPickle(Some(PScalar(StrVal(str))), None) == Err(UnboundLocal)
  {
  }

  /** An index that does not fit the loaded tuple raises inside the `try`,
      and the read ends in the error rather than a default. */
  lemma ReadPickleIndexOutOfRange(xs: seq<PyVal>, i: int)
    requires !(-|xs| <= i < |xs|)
    ensures ReadPickle(Some(PTuple(xs)), Some(i)) == Err(UnboundLocal)
  {
  }

  /** An indexed read of a loaded string never succeeds: `s[i]` is a single
      character, which has no element [1]. */
  lemma ReadPickleIndexedString(str: string, i: int)
    ensures ReadPickle(Some(PScalar(StrVal(str))), Some(i)) == Err(UnboundLocal)
  {
  }

  /** A dictionary or a non-string scalar at the top level is never read
      successfully: only tuples and strings can be subscripted. */
  lemma ReadPickleNeedsTuple(v: PyVal, getIdx: Option<int>)
    requires !v.PTuple? && !IsStr(v)
    ensures ReadPickle(Some(v), getIdx) == Err(UnboundLocal)
  {
  }

  // ---------------------------------------------------------------------
  // display_styled_table
  // ---------------------------------------------------------------------

  /** The families whose displayed table is narrowed to the selected
      categories. */
  const FILTERED_FAMILIES: set<string> :=
    {"compiled_holiday", "compiled_tww", "first_trdr_dom_by_month", "super_day_by_month"}

  /** `display_styled_table`: the resolved table, narrowed for the four
      filtered families to the rows whose `colFilterBy` value is among
      `valFilterTo`, then formatted under the family's own name. */
  function DisplayStyledTable(stats: Stats, key: string, yrRange: string,
                              colFilterBy: Option<string>, valFilterTo: Option<seq<Cell>>,
                              today: Styling.Today): (r: Result<Styling.Styled>)
    ensures ResolveKey(key, yrRange) !in stats ==> r == Err(KeyNotFound(ResolveKey(key, yrRange)))
    ensures r.Ok? ==> ResolveKey(key, yrRange) in stats
    ensures ResolveKey(key, yrRange) in stats && key !in FILTERED_FAMILIES ==> r.Ok?
    ensures ResolveKey(key, yrRange) in stats && key in FILTERED_FAMILIES ==>
      (r.Ok? <==> colFilterBy.Some? && colFilterBy.value in stats[ResolveKey(key, yrRange)].columns && valFilterTo.Some?)
    ensures ResolveKey(key, yrRange) in stats && key in FILTERED_FAMILIES && colFilterBy.None? ==>
      r == Err(ColumnMissing(None))
    ensures ResolveKey(key, yrRange) in stats && key in FILTERED_FAMILIES && colFilterBy.Some?
            && colFilterBy.value !in stats[ResolveKey(key, yrRange)].columns ==>
      r == Err(ColumnMissing(colFilterBy))
    ensures ResolveKey(key, yrRange) in stats && key in FILTERED_FAMILIES && colFilterBy.Some?
            && colFilterBy.value in stats[ResolveKey(key, yrRange)].columns && valFilterTo.None? ==>
      r == Err(NotAList)
    ensures r.Ok? && key !in FILTERED_FAMILIES ==>
      r.value == Styling.FormattingDataframe(stats[ResolveKey(key, yrRange)], key, today)
    ensures r.Ok? && key in FILTERED_FAMILIES ==>
      exists shown :: IsSelection(shown, stats[ResolveKey(key, yrRange)], ColIn(colFilterBy.value, valFilterTo.value))
                      && r.value == Styling.FormattingDataframe(shown, key, today)
  {
    var t :- Lookup(stats, ResolveKey(key, yrRange));
    if key in FILTERED_FAMILIES then
      if colFilterBy.None? then Err(ColumnMissing(None))
      else if colFilterBy.value !in t.columns then Err(ColumnMissing(colFilterBy))
      else if valFilterTo.None? then Err(NotAList)
      else
        var shown := Where(t, ColIn(colFilterBy.value, valFilterTo.value)).value;
        Ok(Styling.FormattingDataframe(shown, key, today))
    else Ok(Styling.FormattingDataframe(t, key, today))
  }

  // ---------------------------------------------------------------------
  // plot_price_diff and the period-specific views
  // ---------------------------------------------------------------------

  /** The column `plot_price_diff` narrows the daily families on. */
  function PriceDiffPeriodColumn(freq: string): Option<string> {
    if freq == "daily_by_trdr_day" then Some("month")
    else if freq == "daily_by_weekday" then Some("week")
    else None
  }

  /** `plot_price_diff`: the daily families keep only the rows of the
      selected month or week, and the three charts draw the table that is
      returned. A missing period column is caught and logged, after which
      returning the never-drawn charts raises. `periodSpec` is `Null` when
      no period was chosen, which selects nothing. */
  function PlotPriceDiff(stats: Stats, freq: string, yrRange: string, periodSpec: Cell): (r: Result<(Table, PricePlots)>)
    ensures ResolveKey(freq, yrRange) !in stats ==> r == Err(KeyNotFound(ResolveKey(freq, yrRange)))
    ensures r.Ok? <==> ResolveKey(freq, yrRange) in stats
                       && (PriceDiffPeriodColumn(freq).Some? ==>
                             PriceDiffPeriodColumn(freq).value in stats[ResolveKey(freq, yrRange)].columns)
    ensures r.Ok? ==> r.value.1 == PricePanels(r.value.0)
    ensures r.Ok? && PriceDiffPeriodColumn(freq).None? ==> r.value.0 == stats[ResolveKey(freq, yrRange)]
    ensures r.Ok? && PriceDiffPeriodColumn(freq).Some? ==>
      IsSelection(r.value.0, stats[ResolveKey(freq, yrRange)], ColEq(PriceDiffPeriodColumn(freq).value, periodSpec))
    ensures r.Err? && ResolveKey(freq, yrRange) in stats ==> r.error == UnboundLocal
  {
    var t :- Lookup(stats, ResolveKey(freq, yrRange));
    match PriceDiffPeriodColumn(freq)
    case None => Ok((t, PricePanels(t)))
    case Some(col) =>
      match Where(t, ColEq(col, periodSpec))
      case Err(_) => Err(UnboundLocal)
      case Ok(f) => Ok((f, PricePanels(f)))
  }

  /** The selected month of `daily_by_trdr_day`: every row drawn has that
      month, and every row of the source table with that month is drawn. */
  lemma DailyByTradingDayMonth(stats: Stats, yrRange: string, month: int)
    requires ResolveKey("daily_by_trdr_day", yrRange) in stats
    requires "month" in stats[ResolveKey("daily_by_trdr_day", yrRange)].columns
    ensures var r := PlotPriceDiff(stats, "daily_by_trdr_day", yrRange, IntVal(month));
      var src := stats[ResolveKey("daily_by_trdr_day", yrRange)].rows;
      && r.Ok?
      && (forall row :: row in r.value.0.rows ==> "month" in row && CellEq(row["month"], IntVal(month)))
      && (forall row :: row in src && "month" in row && row["month"] == IntVal(month) ==> row in r.value.0.rows)
  {
  }

  /** `plot_price_diff_holiday_period`: the whole holiday table is returned,
      but the charts draw only the rows of the selected holiday. */
  function PlotPriceDiffHoliday(stats: Stats, holidayKey: string, yrRange: string): (r: Result<(Table, PricePlots)>)
    ensures ResolveKey("compiled_holiday", yrRange) !in stats ==>
      r == Err(KeyNotFound(ResolveKey("compiled_holiday", yrRange)))
    ensures ResolveKey("compiled_holiday", yrRange) in stats
            && "holiday_category" !in stats[ResolveKey("compiled_holiday", yrRange)].columns ==>
      r == Err(ColumnMissing(Some("holiday_category")))
    ensures r.Ok? <==> ResolveKey("compiled_holiday", yrRange) in stats
                       && "holiday_category" in stats[ResolveKey("compiled_holiday", yrRange)].columns
    ensures r.Ok? ==> r.value.0 == stats[ResolveKey("compiled_holiday", yrRange)]
    ensures r.Ok? ==> exists f :: IsSelection(f, r.value.0, ColEq("holiday_category", StrVal(holidayKey)))
                                 && r.value.1 == PricePanels(f)
  {
    var t :- Lookup(stats, ResolveKey("compiled_holiday", yrRange));
    var f :- Where(t, ColEq("holiday_category", StrVal(holidayKey)));
    Ok((t, PricePanels(f)))
  }

  /** The suffix naming the week after a TWW period. */
  const WEEK_AFTER_SUFFIX: string := "_week_aft"

  /** The rows of a TWW table for the week before (`tww_period == key`) or the
      week after (`tww_period == key + "_week_aft"`). */
  function TwwWeek(twwKey: string, after: bool): Criterion {
    ColEq("tww_period", StrVal(if after then twwKey + WEEK_AFTER_SUFFIX else twwKey))
  }

  /** `plot_price_diff_tww_period`: the week-before and week-after rows are
      overlaid in the change and probability charts, and their counts are
      returned as a (before, after) pair. */
  function PlotPriceDiffTww(stats: Stats, twwKey: string, yrRange: string): (r: Result<(Table, TwwPlots)>)
    ensures ResolveKey("compiled_tww", yrRange) !in stats ==>
      r == Err(KeyNotFound(ResolveKey("compiled_tww", yrRange)))
    ensures ResolveKey("compiled_tww", yrRange) in stats
            && "tww_period" !in stats[ResolveKey("compiled_tww", yrRange)].columns ==>
      r == Err(ColumnMissing(Some("tww_period")))
    ensures r.Ok? <==> ResolveKey("compiled_tww", yrRange) in stats
                       && "tww_period" in stats[ResolveKey("compiled_tww", yrRange)].columns
    ensures r.Ok? ==> r.value.0 == stats[ResolveKey("compiled_tww", yrRange)]
    ensures r.Ok? ==> var p := r.value.1;
      && |Sources(p.countsBefore)| == 1 && |Sources(p.countsAfter)| == 1
      && IsSelection(Sources(p.countsBefore)[0], r.value.0, TwwWeek(twwKey, false))
      && IsSelection(Sources(p.countsAfter)[0], r.value.0, TwwWeek(twwKey, true))
      && Sources(p.avgDiff) == Sources(p.countsBefore) + Sources(p.countsAfter)
      && Sources(p.upProb) == Sources(p.countsBefore) + Sources(p.countsAfter)
      && Levels(p.upProb) == [UPPER_PROB, LOWER_PROB]
  {
    var t :- Lookup(stats, ResolveKey("compiled_tww", yrRange));
    var before :- Where(t, TwwWeek(twwKey, false));
    var after := Where(t, TwwWeek(twwKey, true)).value;
    Ok((t, TwwPanels(before, after)))
  }

  /** The column `plot_price_diff_special_period` narrows on, for the two
      month-indexed special periods. */
  function SpecialPeriodColumn(key: string): Option<string> {
    if key == "first_trdr_dom_by_month" then Some("month")
    else if key == "super_day_by_month" then Some("super_day_spec_month")
    else None
  }

  /** `plot_price_diff_special_period`: like `PlotPriceDiff`, but here a
      missing period column is not caught and its error propagates. */
  function PlotPriceDiffSpecial(stats: Stats, key: string, yrRange: string, periodSpec: Cell): (r: Result<(Table, PricePlots)>)
    ensures ResolveKey(key, yrRange) !in stats ==> r == Err(KeyNotFound(ResolveKey(key, yrRange)))
    ensures r.Ok? <==> ResolveKey(key, yrRange) in stats
                       && (SpecialPeriodColumn(key).Some? ==>
                             SpecialPeriodColumn(key).value in stats[ResolveKey(key, yrRange)].columns)
    ensures r.Ok? ==> r.value.1 == PricePanels(r.value.0)
    ensures r.Ok? && SpecialPeriodColumn(key).None? ==> r.value.0 == stats[ResolveKey(key, yrRange)]
    ensures r.Ok? && SpecialPeriodColumn(key).Some? ==>
      IsSelection(r.value.0, stats[ResolveKey(key, yrRange)], ColEq(SpecialPeriodColumn(key).value, periodSpec))
    ensures r.Err? && ResolveKey(key, yrRange) in stats ==>
      r.error == ColumnMissing(SpecialPeriodColumn(key))
  {
    var t :- Lookup(stats, ResolveKey(key, yrRange));
    match SpecialPeriodColumn(key)
    case None => Ok((t, PricePanels(t)))
    case Some(col) =>
      var f :- Where(t, ColEq(col, periodSpec));
      Ok((f, PricePanels(f)))
  }

  // ---------------------------------------------------------------------
  // plot_vol_avg (dictionary lookups only)
  // ---------------------------------------------------------------------

  /** The dictionary lookups of `plot_vol_avg`: the column- and row-wise
      average-volume tables of a family, then the family's own table. For
      the daily families the family table and its month or week column are
      read inside a `try` whose failure is only logged, after which the
      final `return` of the never-drawn charts raises; for the others the
      family table is read outside it, so a missing key propagates. */
  function VolTables(stats: Stats, freq: string): (r: Result<(Table, Table)>)
    ensures r.Ok? <==> freq + "_avg_vol_col" in stats && freq + "_avg_vol_row" in stats && freq in stats
                       && (PriceDiffPeriodColumn(freq).Some? ==> PriceDiffPeriodColumn(freq).value in stats[freq].columns)
    ensures r.Ok? ==> r.value == (stats[freq + "_avg_vol_col"], stats[freq + "_avg_vol_row"])
    ensures freq + "_avg_vol_col" !in stats ==> r == Err(KeyNotFound(freq + "_avg_vol_col"))
    ensures freq + "_avg_vol_col" in stats && freq + "_avg_vol_row" !in stats ==>
      r == Err(KeyNotFound(freq + "_avg_vol_row"))
    ensures freq + "_avg_vol_col" in stats && freq + "_avg_vol_row" in stats && r.Err? ==>
      r.error == if PriceDiffPeriodColumn(freq).Some? then UnboundLocal else KeyNotFound(freq)
  {
    var byCol :- Lookup(stats, freq + "_avg_vol_col");
    var byRow :- Lookup(stats, freq + "_avg_vol_row");
    match PriceDiffPeriodColumn(freq)
    case Some(period) =>
      if freq in stats && period in stats[freq].columns then Ok((byCol, byRow)) else Err(UnboundLocal)
    case None =>
      var _ :- Lookup(stats, freq);
      Ok((byCol, byRow))
  }

  // ---------------------------------------------------------------------
  // How the views' charts and tables agree
  // ---------------------------------------------------------------------

  /** Membership in a list of two non-null values is equality with one of them. */
  lemma IsInTwo(c: Cell, v: Cell, w: Cell)
    requires !v.Null? && !w.Null?
    ensures IsIn(c, [v, w]) <==> CellEq(c, v) || CellEq(c, w)
  {
    if CellEq(c, v) {
      assert [v, w][0] == v;
    } else if CellEq(c, w) {
      assert [v, w][1] == w;
    }
  }

  /** Membership in a one-value list is equality with it, for a non-null value. */
  lemma IsInOne(c: Cell, v: Cell)
    requires !v.Null?
    ensures IsIn(c, [v]) <==> CellEq(c, v)
  {
    if CellEq(c, v) {
      assert [v][0] == v;
    }
  }

  /** The TWW week-before and week-after rows never overlap, and the table
      shown beside the charts (filtered to both period names) holds exactly
      the rows of the two charted weeks. */
  lemma {:induction false} TwwTableIsBothWeeks(stats: Stats, twwKey: string, yrRange: string, today: Styling.Today)
    requires ResolveKey("compiled_tww", yrRange) in stats
    requires "tww_period" in stats[ResolveKey("compiled_tww", yrRange)].columns
    ensures var p := PlotPriceDiffTww(stats, twwKey, yrRange).value.1;
      var before := Sources(p.countsBefore)[0].rows;
      var after := Sources(p.countsAfter)[0].rows;
      var names := [StrVal(twwKey), StrVal(twwKey + WEEK_AFTER_SUFFIX)];
      var shown := DisplayStyledTable(stats, "compiled_tww", yrRange, Some("tww_period"), Some(names), today);
      && multiset(before) !! multiset(after)
      && shown.Ok?
      && multiset(shown.value.table.rows) == multiset(before) + multiset(after)
  {
    var t := stats[ResolveKey("compiled_tww", yrRange)];
    var names := [StrVal(twwKey), StrVal(twwKey + WEEK_AFTER_SUFFIX)];
    var pb, pa, both := Sel(TwwWeek(twwKey, false)), Sel(TwwWeek(twwKey, true)), Sel(ColIn("tww_period", names));
    forall row
      ensures both(row) == (pb(row) || pa(row))
      ensures !(pb(row) && pa(row))
    {
      if "tww_period" in row {
        IsInTwo(row["tww_period"], names[0], names[1]);
        assert |twwKey + WEEK_AFTER_SUFFIX| != |twwKey|;
      }
    }
    Seqs.FilterDisjointUnion(t.rows, pb, pa, both);
  }

  /** For the two month-indexed special periods, the table shown (filtered
      to the selected month through `isin`) and the charts (filtered by
      equality) draw the very same rows, provided a month was selected. */
  lemma {:induction false} SpecialTableMatchesCharts(stats: Stats, key: string, yrRange: string, month: Cell, today: Styling.Today)
    requires key == "first_trdr_dom_by_month" || key == "super_day_by_month"
    requires !month.Null?
    requires ResolveKey(key, yrRange) in stats
    requires SpecialPeriodColumn(key).value in stats[ResolveKey(key, yrRange)].columns
    ensures var charted := PlotPriceDiffSpecial(stats, key, yrRange, month);
      var shown := DisplayStyledTable(stats, key, yrRange, SpecialPeriodColumn(key), Some([month]), today);
      && charted.Ok? && shown.Ok?
      && shown.value.table.rows == charted.value.0.rows
  {
    var t := stats[ResolveKey(key, yrRange)];
    var col := SpecialPeriodColumn(key).value;
    forall i | 0 <= i < |t.rows|
      ensures Sel(ColIn(col, [month]))(t.rows[i]) == Sel(ColEq(col, month))(t.rows[i])
    {
      if col in t.rows[i] {
        IsInOne(t.rows[i][col], month);
      }
    }
    Seqs.FilterExtensional(t.rows, Sel(ColIn(col, [month])), Sel(ColEq(col, month)));
  }
}

=== FILE: wrappers.dfy ===
/** Failure-carrying datatypes shared by the dashboard model.

    The dashboard is written in Python, where a failed lookup raises an
    exception. Each exception the modelled code can let escape becomes an
    `Error` value, and an operation that may raise returns a `Result`.
 */
module Wrappers {

  datatype Option<+T> = None | Some(value: T)

  /** The exceptions that can escape from the modelled operations. */
  datatype Error =
    /** A dictionary of tables has no entry for `key` (Python `KeyError`). */
    | KeyNotFound(key: string)
    /** A table has no column of this name; `None` stands for subscripting a
        table with `None` (also a `KeyError` in pandas). */
    | ColumnMissing(col: Option<string>)
    /** `isin` was given something that is not a list (pandas `TypeError`). */
    | NotAList
    /** An exception was caught and logged, and the code then returned a local
        variable the failed statement never assigned (`UnboundLocalError`). */
    | UnboundLocal

  /** Failure-compatible, so that `:-` propagates an error. */
  datatype Result<+T> = Ok(value: T) | Err(error: Error) {

    predicate IsFailure() {
      Err?
    }

    function PropagateFailure<U>(): Result<U>
      requires Err?
    {
      Err(error)
    }

    function Extract(): T
      requires Ok?
    {
      value
    }
  }
}
